=== FILE: README.md ===
# DIGIBAT drop casting and 384-electrode sheet, in Dafny

This project models two parts of the DIGIBAT drop-casting setup for an
Opentrons robot.

**Drop casting.** The dispensing section of the drop-casting protocol
(`DropCastingElectrode/drop_casting.py`) works like this:
- one 1000 µL tip is picked up;
- the destination wells are visited in order;
- a single counter `remaining` decides when the tip goes back to the ink
  source for a reload;
- the tip is blown out and dropped at the end.

The robot calls are modelled as the ordered trace of actions the protocol
issues: `PickUp`, `Aspirate(v)`, `Dispense(v, well)`, `BlowOut` and `DropTip`.
- `DropCasting.Loop` and `DropCasting.DropCast` give the trace as pure functions.
- `DropCasting.RunDropCast` is the same loop written imperatively. It appends
  to a trace and updates `remaining`.

The constants are the ones the protocol assigns: `dist_volume = 10` µL per
well and `load_volume = 500` µL per reload. The inline comments on those
lines and the run's name still say 2 µL and 200 µL. The model follows the
assignments.

**The sheet.** The labware generator (`3Dprint/generate_digibat_384_sheet.py`)
builds the well dictionary of the 384-well sheet, plus its column-major
`ordering`:
- rows are `A`…`P` and columns are `1`…`24`;
- a well is named by its row letter followed by its column number;
- all wells share one point-like shape;
- well centres lie one 4.50 mm pitch apart.

Lengths are in hundredths of a millimetre, so every measurement the
generator uses is an exact integer:
- 12.12 mm is `1212`;
- 4.50 mm is `450`.

`ElectrodeSheet.Locate` is the inverse of the naming (name to grid position).
The dictionary's keys are characterised through it.

Properties proved:

*The trace*
- One pick-up comes first. One blow-out and one tip drop come last, and
  neither appears anywhere else.
- Every destination is dispensed into exactly once, in input order, with one
  dose.
- With a positive dose and a non-empty well list, a reload comes right after
  the pick-up.

*The counter*
- Replayed over the trace, the counter reloads exactly when it cannot cover
  a dose.
- Every reload draws the full reload volume.
- The counter stays within [0, load] whenever load ≥ dose.

*Reloads and conservation* (all for 0 < dose ≤ load, which the protocol's
10 µL and 500 µL meet)
- The reload schedule in closed form: with n = ⌊load / dose⌋, the loop
  reloads before the k-th well iff n divides k. There are ⌈N / n⌉ reloads.
- Conservation: load × reloads − dose × dispenses equals the final counter
  whenever the dose divides the reload volume. Otherwise it is only an upper
  bound, and the bound can be strict: 4 doses of 3 µL with 10 µL reloads end
  with the counter at 7 µL, against 20 − 12 = 8 µL. The reason is that a
  reload overwrites the counter, which forgets the residue. The residue itself
  stays in the tip until the final blow-out.
- For the configured protocol over 384 wells: 8 reloads, before wells 0, 50,
  …, 350, and a final counter of 160 µL.

*The sheet*
- Names round-trip through `Locate`, and distinct wells have distinct names.
- The dictionary holds exactly the 384 names `Locate` accepts, each with the
  record of its own position.
- `ordering` lists columns 1…24, each in row order A…P. Every name in it is a
  key of the dictionary, and no name appears twice.
- Every well lies inside the labware footprint, and its top is flush with the
  labware's top.

The protocol loads its plate as `digibat_384_wellplate_1000ul`. The generator
writes `loadName` `digibat_384_electrode_sheet`. The model does not connect
the two: the destination order is an input to the loop.

Modules:
- `Arith` (`arith.dfy`): facts about Euclidean division.
- `Options` (`options.dfy`): the optional value.
- `Decimal` (`decimal.dfy`): column numbers written and read back.
- `DropCasting` (`drop_casting.dfy`): the trace, the loop and the method.
- `DropCastingProofs` (`drop_casting_proofs.dfy`): the loop's properties.
- `ElectrodeSheet` (`electrode_sheet.dfy`): the well grid.

## Model

| member | source | states |
|---|---|---|
| `DropCasting.Loop` | DropCastingElectrode/drop_casting.py:115-125 | The `for dest in destination_wells` loop as a pure function of the destinations and the entry counter. Each iteration reloads `load` when the counter is below one dose, then dispenses one dose. Its contract: when load ≥ dose, a counter entered within [0, load] leaves within [0, load]. |
| `DropCasting.DropCast` | DropCastingElectrode/drop_casting.py:114-129 | The dispensing section as a trace: the pick-up, the loop from a zero counter, then the blow-out and the tip drop, whatever is left. It has no contract of its own; `DropCastFrame`, `DropCastDispenses`, `DropCastCounter` and `DropCastSchedule` state its properties. |
| `DropCasting.RunDropCast` | DropCastingElectrode/drop_casting.py:114-129 | The imperative loop (pick up, reload when `remaining < dist_volume`, dispense, subtract; then blow out and drop the tip) emits exactly the functional trace. Its final `remaining` is what replaying that trace from 0 gives, and it lies in [0, load] when load ≥ dose. |
| `DropCastingProofs.LoopDispensesInOrder` | DropCastingElectrode/drop_casting.py:117-125 | The loop dispenses into the destinations exactly in input order, one dispense per destination. Every action it emits is either a full reload or a dispense of one dose. |
| `DropCastingProofs.LoopCounterBounded` | DropCastingElectrode/drop_casting.py:115-125 | With load ≥ dose and a start in [0, load], the counter stays within [0, load] after every action. After at least one dispense of a positive dose, it ends strictly below load. |
| `DropCastingProofs.CounterNeverExceedsDrawn` | DropCastingElectrode/drop_casting.py:119-125 | With dose ≤ load and a non-negative start counter: since `remaining = load_volume` overwrites the counter, the change of the counter is at most load × reloads − dose × dispenses. |
| `DropCastingProofs.ConservationWhenDivisible` | DropCastingElectrode/drop_casting.py:119-125 | For 0 < dose ≤ load, when the dose divides the reload volume (and the start counter), the counter is empty at every reload, so it never forgets a residue. load × reloads − dose × dispenses equals the change of the counter exactly. |
| `DropCastingProofs.DropCastFrame` | DropCastingElectrode/drop_casting.py:114-129 | The trace starts with the only pick-up and ends with the only blow-out followed by the only tip drop. No dispense comes after the blow-out. |
| `DropCastingProofs.DropCastDispenses` | DropCastingElectrode/drop_casting.py:115-125 | The whole trace dispenses into each destination once, in input order, each with the dose. Because `remaining` starts at 0, a positive dose and a non-empty well list make the action after the pick-up a reload of the full volume. |
| `DropCastingProofs.DropCastCounter` | DropCastingElectrode/drop_casting.py:115-129 | Replayed from 0, the trace satisfies the reload rule at every step: a reload happens only when the counter is below one dose, draws the reload volume and is followed by a dispense; every other dispense starts with at least one dose. The replayed counter ends at the loop's `remaining`, and stays within [0, load] when load ≥ dose. |
| `DropCastingProofs.DropCastSchedule` | DropCastingElectrode/drop_casting.py:115-125 | For 0 < dose ≤ load, with n = ⌊load / dose⌋, the reload before the k-th dispense happens iff k is a multiple of n. There are ⌈N / n⌉ reloads, and the counter ends at load − dose × ((N − 1) mod n + 1). |
| `DropCastingProofs.ReloadCountWhenDivisible` | DropCastingElectrode/drop_casting.py:119-121 | For 0 < dose ≤ load, when the dose divides the reload volume, the number of reloads is ⌈N × dose / load⌉. |
| `DropCastingProofs.ReloadCountWithResidue` | DropCastingElectrode/drop_casting.py:119-125 | When it does not, the counter forgets each cycle's residue (the liquid stays in the tip), which forces extra reloads: 10 doses of 3 µL with 10 µL reloads take 4 reloads, while ⌈30 / 10⌉ = 3. |
| `DropCastingProofs.ReloadsEveryWellBelowOneDose` | DropCastingElectrode/drop_casting.py:117-125 | When the reload volume is below one dose (which the protocol does not check), the loop reloads before every well and dispenses once per well. After the first well the counter sits at load − dose, below zero, and stays there. |
| `DropCastingProofs.CounterBelowDrawnWithResidue` | DropCastingElectrode/drop_casting.py:119-125 | The bound of `CounterNeverExceedsDrawn` can be strict: 4 doses of 3 µL with 10 µL reloads make 2 reloads and 4 dispenses, so 20 − 12 = 8 µL were drawn minus dispensed, yet the counter ends at 7 µL. The second reload overwrites a counter that still holds 1 µL. |
| `DropCastingProofs.Protocol384` | DropCastingElectrode/drop_casting.py:108-129 | With the assigned 10 µL dose and 500 µL reloads over 384 wells: 8 reloads, placed before wells 0, 50, …, 350; 384 dispenses; a final counter of 160 µL. |
| `Decimal.ParseShow` | 3Dprint/generate_digibat_384_sheet.py:28 | The decimal numeral written for a column number reads back to that number. |
| `Decimal.ShowParse` | 3Dprint/generate_digibat_384_sheet.py:28 | Every numeral the reader accepts (digits only, no leading zero) is exactly the one written for its value: there is one spelling per number. |
| `ElectrodeSheet.WellName` | 3Dprint/generate_digibat_384_sheet.py:27-28 | The name `f"{row}{col}"`: the row letter, then the one-based column number in decimal. It has no contract of its own; `Locate` is its inverse, by `LocateWellName` and `WellNameOfLocate`. |
| `ElectrodeSheet.LocateWellName` | 3Dprint/generate_digibat_384_sheet.py:27-28 | The name built from a row letter and a column number locates back to that row and column. |
| `ElectrodeSheet.WellNameOfLocate` | 3Dprint/generate_digibat_384_sheet.py:27-28 | Every string that locates to a grid position is exactly the name built for that position. |
| `ElectrodeSheet.WellNameInjective` | 3Dprint/generate_digibat_384_sheet.py:23-33 | Two positions on the sheet get the same name iff they are the same position, so no dictionary entry overwrites another. |
| `ElectrodeSheet.Record` | 3Dprint/generate_digibat_384_sheet.py:14-41 | The dictionary entry for one well: the shared depth, volume, circular shape, diameter and bottom height. The centre is one pitch per column from X_OFFSET and one pitch per row from Y_OFFSET. Its contract: bottom height plus depth (2.79 + 11.43 mm) is 14.22 mm, the labware height the definition declares. |
| `ElectrodeSheet.RecordCentre` | 3Dprint/generate_digibat_384_sheet.py:25-39 | A record's x and y decode back to its column and row: x − X_OFFSET is column × X_SPACING and y − Y_OFFSET is row × Y_SPACING. Neighbouring wells are exactly one pitch apart. |
| `ElectrodeSheet.RecordFits` | 3Dprint/generate_digibat_384_sheet.py:66-70 | Every well of the 16 × 24 grid lies wholly inside the labware's 127.76 × 85.47 mm footprint. The offsets, pitch and diameter come from lines 8-16; the footprint comes from lines 66-70. |
| `ElectrodeSheet.SheetCorners` | 3Dprint/generate_digibat_384_sheet.py:4-43 | A1 is at (X_OFFSET, Y_OFFSET), B1 is one Y_SPACING further in y, and P24 is the last well. Names with a leading zero, an unknown or lower-case row letter, or a column outside 1…24 are not wells. |
| `ElectrodeSheet.SheetContents` | 3Dprint/generate_digibat_384_sheet.py:20-41 | The finished dictionary's keys are exactly the names that locate, each with the record of its own position, 384 entries in all. |
| `ElectrodeSheet.ColumnsInOrder` | 3Dprint/generate_digibat_384_sheet.py:21-43 | A list of the 24 columns built by the loops holds 16 names per column, in row order A…P. The name at column c, row r locates to exactly that position. Every well name sits in its own column's list at its own row. |
| `ElectrodeSheet.BuildColumn` | 3Dprint/generate_digibat_384_sheet.py:24-41 | One pass of the inner loop over the 16 rows. It returns that column's names in row order A…P, and the dictionary extended by exactly that column's records. |
| `ElectrodeSheet.BuildSheet` | 3Dprint/generate_digibat_384_sheet.py:19-43 | The nested loops (columns outer, rows inner) produce 24 lists of 16 names in column-major order and a dictionary keyed by exactly the names of the sheet, with no name twice and 384 entries. Every name in `ordering` is a key of the dictionary, and no two positions of `ordering` hold the same name. Each entry has the shared shape and the centre of its own position. |

## Left out

- Network scripts (`connect_test.py`, `get_status.py`, `lights_control.py`, `run_protocol.py`, `upload_protocol.py`): they only send HTTP requests to the robot and hold no logic of their own.
- Robot set-up in `drop_casting.py` (lines 9-104 and 131): module, labware and instrument loading, the unused P20, the starting tip, liquid definitions, the heater-shaker latch and temperature, the pause and the closing comment. The plate (lines 18-21), the ink rack (line 43) and the P1000 (lines 63-67) are the loop's destinations, source and pipette. They are abstracted into the input well sequence and into location-free `Aspirate` and `BlowOut` actions.
- The destination order comes from the robot software's `electrode_plate.wells()`. The model takes it as an input sequence.
- Pipetting heights (`source.bottom(1.5)`, `dest.bottom(0.5)`, `source.top()`) are left out: a `Dispense` records only its volume and well.
- Configuration checks: the protocol validates neither the dose nor the reload volume. The model does not either. It states its counter bounds only under load ≥ dose. Below that, nothing in the protocol keeps the counter non-negative.
- `CounterNeverExceedsDrawn`, `ConservationWhenDivisible`, `DropCastSchedule` and `ReloadCountWhenDivisible` hold only for 0 < dose ≤ load, which the configured 10 µL and 500 µL meet. Outside that range the program behaves differently. With a 10 µL dose and 5 µL reloads it reloads before every well, and the counter ends every well at −5 µL. From the second well on, drawn minus dispensed (−5 µL per well) falls below the counter's change (−5 µL in all). And ⌊load / dose⌋ is 0, so there is no cycle length. `ReloadsEveryWellBelowOneDose` states this behaviour for every load below one dose.
- There is no drain action. The protocol blows out and drops the tip unconditionally, whatever is left, and so does the model.
- Floating point: the generator computes coordinates in binary floating point (`12.12 + col_index * 4.50`). The model uses exact hundredths of a millimetre and does not reproduce rounding in the last bits.
- The labware definition's remaining fields (version, metadata, brand, parameters, offsets, lines 45-75) and the JSON file write and print (lines 77-82) are left out. The only fields used are the dimensions, by `ElectrodeSheet.Record` (height) and `ElectrodeSheet.RecordFits` (footprint).

=== FILE: arith.dfy ===
/** Facts about Euclidean division that the reload-cycle proofs lean on.
    Z3 does not reason about `/` and `%` by a variable divisor on its own,
    so every such step goes through `DivModUnique`.
 */
module Arith {

  /** The number of multiples of `n` in the half-open range [0, x). */
  function CeilDiv(x: nat, n: nat): (k: nat)
    requires n > 0
    ensures k * n >= x && (k == 0 || (k - 1) * n < x)
  {
    var k := (x + n - 1) / n;
    DivModUnique(x + n - 1, n, (x + n - 1) / n, (x + n - 1) % n);
    k
  }

  /** Quotient and remainder are determined by any decomposition x == q*n + r with 0 <= r < n. */
  lemma DivModUnique(x: int, n: int, q: int, r: int)
    requires n > 0 && 0 <= r < n && x == q * n + r
    ensures x / n == q && x % n == r
  {
    var q', r' := x / n, x % n;
    assert x == q' * n + r';
    var d := q - q';
    assert d * n == r' - r by {
      assert q * n - q' * n == (q - q') * n;
    }
    if d >= 1 {
      MulAtLeast(d, n);
    } else if d <= -1 {
      MulAtLeast(-d, n);
    }
  }

  /** A multiple by a positive factor is at least the multiplicand. */
  lemma MulAtLeast(d: int, n: int)
    requires d >= 1 && n > 0
    ensures d * n >= n
  {
    assert d * n == (d - 1) * n + n;
    assert (d - 1) * n >= 0;
  }

  /** Stepping x to x + 1 advances the remainder by one, wrapping to 0 at n. */
  lemma ModSucc(x: nat, n: nat)
    requires n > 0
    ensures x % n + 1 < n ==> (x + 1) % n == x % n + 1
    ensures x % n + 1 == n ==> (x + 1) % n == 0
  {
    if x % n + 1 < n {
      DivModUnique(x + 1, n, x / n, x % n + 1);
    } else {
      DivModUnique(x + 1, n, x / n + 1, 0);
    }
  }

  /** Counting multiples of n below x + 1 adds one exactly when x itself is a multiple. */
  lemma CeilDivSucc(x: nat, n: nat)
    requires n > 0
    ensures CeilDiv(x + 1, n) == CeilDiv(x, n) + (if x % n == 0 then 1 else 0)
  {
    var q, r := x / n, x % n;
    DivModUnique(x + n, n, q + 1, r);
    if r == 0 {
      DivModUnique(x + n - 1, n, q, n - 1);
    } else {
      DivModUnique(x + n - 1, n, q + 1, r - 1);
    }
  }

  /** Splitting `a` by a positive divisor `d` into whole parts and a remainder. */
  lemma QuotientBounds(a: nat, d: nat)
    requires 0 < d <= a
    ensures a / d >= 1
    ensures d * (a / d) <= a < d * (a / d) + d
    ensures a - d * (a / d) == a % d
  {
    assert a == (a / d) * d + a % d;
  }

  /** CeilDiv(x, n) is the only k with k*n >= x and (k - 1)*n < x (or k == 0). */
  lemma CeilDivUnique(x: nat, n: nat, k: nat)
    requires n > 0 && k * n >= x && (k == 0 || (k - 1) * n < x)
    ensures k == CeilDiv(x, n)
  {
    var c := CeilDiv(x, n);
    if k < c {
      MulLe(k, c - 1, n);
    } else if c < k {
      MulLe(c, k - 1, n);
    }
  }

  /** Multiplication by a non-negative factor keeps order. */
  lemma MulLe(a: nat, b: nat, n: nat)
    requires a <= b
    ensures a * n <= b * n
  {
    assert b * n - a * n == (b - a) * n;
  }

  /** Scaling both the amount and the divisor by the same positive factor
      leaves the rounded-up quotient unchanged. */
  lemma CeilDivScaled(x: nat, n: nat, f: nat)
    requires n > 0 && f > 0
    ensures n * f > 0 && CeilDiv(x * f, n * f) == CeilDiv(x, n)
  {
    var k := CeilDiv(x, n);
    MulLt(0, n, f);
    MulLe(x, k * n, f);
    MulAssoc(k, n, f);
    if k > 0 {
      MulLt((k - 1) * n, x, f);
      MulAssoc(k - 1, n, f);
    }
    CeilDivUnique(x * f, n * f, k);
  }

  /** Multiplication by a positive factor keeps strict order. */
  lemma MulLt(a: nat, b: nat, f: nat)
    requires a < b && f > 0
    ensures a * f < b * f
  {
    MulLe(a + 1, b, f);
    assert (a + 1) * f == a * f + f;
  }

  /** Multiplication regroups freely. */
  lemma MulAssoc(a: int, b: int, c: int)
    ensures (a * b) * c == a * (b * c)
  {
  }
}

=== FILE: decimal.dfy ===
/** Decimal numerals as the sheet generator writes them into well names
    (Python's `str` of a positive int): no sign, no padding, no leading zero. */
module Decimal {
  import opened Options
  import opened Arith

  predicate IsDigit(c: char)
  {
    '0' <= c <= '9'
  }

  predicate AllDigits(s: string)
  {
    forall i | 0 <= i < |s| :: IsDigit(s[i])
  }

  /** The character for a digit value. */
  function DigitChar(d: nat): (c: char)
    requires d < 10
    ensures IsDigit(c)
  {
    ('0' as int + d) as char
  }

  /** The value of a digit character. */
  function DigitValue(c: char): (d: nat)
    requires IsDigit(c)
    ensures d < 10 && DigitChar(d) == c
  {
    c as int - '0' as int
  }

  /** The shortest decimal numeral of `n`, most significant digit first. */
  function Show(n: nat): (s: string)
    ensures |s| >= 1
    decreases n
  {
    if n < 10 then [DigitChar(n)] else Show(n / 10) + [DigitChar(n % 10)]
  }

  /** The value of a string of digits read most significant first. */
  function Value(s: string): nat
    requires AllDigits(s)
    decreases |s|
  {
    if |s| == 0 then 0
    else 10 * Value(s[..|s| - 1]) + DigitValue(s[|s| - 1])
  }

  /** Reads a numeral written by `Show`: non-empty, digits only, and no
      leading zero unless the numeral is "0" itself. Anything else is refused. */
  function Parse(s: string): (r: Option<nat>)
    ensures r.Some? <==> |s| > 0 && AllDigits(s) && (|s| == 1 || s[0] != '0')
  {
    if |s| == 0 || !AllDigits(s) || (|s| > 1 && s[0] == '0') then None
    else Some(Value(s))
  }

  /** `Show` writes digits only, starts with a non-zero digit unless it writes
      "0", and its numeral reads back to the number. */
  lemma {:induction false} ShowIsCanonical(n: nat)
    ensures AllDigits(Show(n))
    ensures Show(n)[0] == '0' <==> n == 0
    ensures Value(Show(n)) == n
    decreases n
  {
    var s := Show(n);
    if n >= 10 {
      ShowIsCanonical(n / 10);
      var p := Show(n / 10);
      assert s == p + [DigitChar(n % 10)];
      assert s[..|s| - 1] == p;
      assert s[0] == p[0];
    }
  }

  /** Writing a number and reading it back gives the number. */
  lemma ParseShow(n: nat)
    ensures Parse(Show(n)) == Some(n)
  {
    ShowIsCanonical(n);
  }

  /** Every numeral `Parse` accepts is the one `Show` writes for its value:
      there is exactly one accepted spelling per number. */
  lemma {:induction false} ShowParse(s: string)
    requires Parse(s).Some?
    ensures Show(Parse(s).value) == s
    decreases |s|
  {
    var n := Parse(s).value;
    if |s| > 1 {
      var p := s[..|s| - 1];
      var d := DigitValue(s[|s| - 1]);
      assert p[0] == s[0];
      assert AllDigits(p) by {
        forall i | 0 <= i < |p| ensures IsDigit(p[i]) {
          assert p[i] == s[i];
        }
      }
      ShowParse(p);
      var v := Value(p);
      ShowIsCanonical(v);
      assert v != 0;
      assert n == 10 * v + d;
      DivModUnique(n, 10, v, d);
      assert Show(n) == p + [s[|s| - 1]];
      assert s == p + [s[|s| - 1]];
    } else {
      assert s[..0] == [];
      var d := DigitValue(s[0]);
      assert Value(s) == 10 * Value(s[..0]) + d;
      assert n == d;
      assert Show(n) == [DigitChar(d)] == [s[0]];
      assert s == [s[0]];
    }
  }
}

=== FILE: drop_casting.dfy ===
/** The drop-casting run: one P1000 tip is picked up, the plate's destination
    wells are visited in order, and a single counter `remaining` decides when
    the tip must go back to the ink source for a reload. The robot calls are
    modelled as the ordered trace of actions the protocol emits.
 */
module DropCasting {

  type Well = string

  /** One pipette command, as issued by the protocol. Volumes are in µL. */
  datatype Action =
    | PickUp
    | Aspirate(volume: nat)
    | Dispense(volume: nat, well: Well)
    | BlowOut
    | DropTip

  /** Volume dispensed per destination, as assigned in the protocol (its comment's "2 µL" is stale). */
  const DIST_VOLUME: nat := 10
  /** Volume drawn per reload, as assigned in the protocol (its comment's "200 µL" is stale). */
  const LOAD_VOLUME: nat := 500

  /** What the loop leaves behind: the actions it emitted and the final counter. */
  datatype Run = Run(actions: seq<Action>, remaining: int)

  // ---------------------------------------------------------------------------
  // Observers of a trace, defined independently of how the trace is produced
  // ---------------------------------------------------------------------------

  /** The effect of one action on the protocol's `remaining` counter: a reload
      overwrites it with the aspirated volume, a dispense subtracts its volume,
      and the tip handling commands leave it alone. */
  function Apply(level: int, a: Action): int
  {
    match a
    case Aspirate(v) => v
    case Dispense(v, _) => level - v
    case _ => level
  }

  /** The counter after replaying `t` from `level`, one action at a time. */
  function Replay(t: seq<Action>, level: int): int
  {
    if |t| == 0 then level else Replay(t[1..], Apply(level, t[0]))
  }

  /** The counter before the first action of `t` and after each of its actions. */
  function Levels(t: seq<Action>, level: int): (ls: seq<int>)
    ensures |ls| == |t| + 1 && ls[0] == level
  {
    if |t| == 0 then [level] else [level] + Levels(t[1..], Apply(level, t[0]))
  }

  /** Every value of a counter history lies within [0, load]. */
  predicate LevelsWithin(ls: seq<int>, load: int)
  {
    forall j :: 0 <= j < |ls| ==> 0 <= ls[j] <= load
  }

  /** Replaying `t` from `level`: a reload draws `load`, happens only while the
      counter cannot cover one dose, and is directly followed by a dispense; a
      dispense that is not preceded by a reload happens only while the counter
      still covers one dose. */
  predicate ReloadsExactlyWhenLow(t: seq<Action>, level: int, dist: nat, load: nat)
    decreases |t|
  {
    if |t| == 0 then true
    else match t[0]
      case Aspirate(v) =>
        && v == load && level < dist
        && |t| >= 2 && t[1].Dispense?
        && ReloadsExactlyWhenLow(t[2..], Apply(v, t[1]), dist, load)
      case Dispense(_, _) =>
        level >= dist && ReloadsExactlyWhenLow(t[1..], Apply(level, t[0]), dist, load)
      case _ =>
        ReloadsExactlyWhenLow(t[1..], level, dist, load)
  }

  /** The destination wells, in the order the trace dispenses into them. */
  function Dispensed(t: seq<Action>): seq<Well>
  {
    if |t| == 0 then []
    else (if t[0].Dispense? then [t[0].well] else []) + Dispensed(t[1..])
  }

  /** The number of reloads in a trace. */
  function CountAspirates(t: seq<Action>): nat
  {
    if |t| == 0 then 0
    else (if t[0].Aspirate? then 1 else 0) + CountAspirates(t[1..])
  }

  /** The number of dispenses in a trace. */
  function CountDispenses(t: seq<Action>): nat
  {
    if |t| == 0 then 0
    else (if t[0].Dispense? then 1 else 0) + CountDispenses(t[1..])
  }

  /** One flag per dispense: whether a reload immediately precedes it. */
  function ReloadFlags(t: seq<Action>): seq<bool>
  {
    if |t| == 0 then []
    else if t[0].Aspirate? && |t| > 1 && t[1].Dispense? then [true] + ReloadFlags(t[2..])
    else if t[0].Dispense? then [false] + ReloadFlags(t[1..])
    else ReloadFlags(t[1..])
  }

  // ---------------------------------------------------------------------------
  // The protocol
  // ---------------------------------------------------------------------------

  /** One iteration for destination `w`, entered with counter `remaining`:
      reload when the counter cannot cover one dose, then dispense one dose. */
  function Block(remaining: int, w: Well, dist: nat, load: nat): seq<Action>
  {
    (if remaining < dist then [Aspirate(load)] else []) + [Dispense(dist, w)]
  }

  /** The counter after one iteration entered with `remaining`. */
  function Next(remaining: int, dist: nat, load: nat): int
  {
    (if remaining < dist then load else remaining) - dist
  }

  /** The `for dest in destination_wells` loop, entered with counter `remaining`.
      When a reload covers at least one dose, a counter entered within
      [0, load] leaves within [0, load]. */
  function Loop(dests: seq<Well>, dist: nat, load: nat, remaining: int): (r: Run)
    ensures dist <= load && 0 <= remaining <= load ==> 0 <= r.remaining <= load
    decreases |dests|
  {
    if |dests| == 0 then Run([], remaining)
    else
      var rest := Loop(dests[1..], dist, load, Next(remaining, dist, load));
      Run(Block(remaining, dests[0], dist, load) + rest.actions, rest.remaining)
  }

  /** The whole dispensing section: pick up a tip, run the loop from an empty
      counter, then blow out and drop the tip unconditionally. */
  function DropCast(dests: seq<Well>, dist: nat, load: nat): seq<Action>
  {
    [PickUp] + Loop(dests, dist, load, 0).actions + [BlowOut, DropTip]
  }

  /** The protocol as configured: 10 µL per well, reloading 500 µL at a time. */
  function Protocol(dests: seq<Well>): seq<Action>
  {
    DropCast(dests, DIST_VOLUME, LOAD_VOLUME)
  }

  // ---------------------------------------------------------------------------
  // The loop as the protocol runs it
  // ---------------------------------------------------------------------------

  /** Replaying one more action takes one step of the counter. */
  lemma {:induction false} ReplaySnoc(t: seq<Action>, a: Action, level: int)
    ensures Replay(t + [a], level) == Apply(Replay(t, level), a)
    decreases |t|
  {
    if |t| > 0 {
      assert (t + [a])[1..] == t[1..] + [a];
      ReplaySnoc(t[1..], a, Apply(level, t[0]));
    }
  }

  /** One iteration of the loop, seen from the suffix of wells still to visit:
      the emitted prefix grows by one block and the suffix shrinks by one well. */
  lemma LoopStep(prefix: seq<Action>, dests: seq<Well>, i: nat, dist: nat, load: nat, remaining: int)
    requires i < |dests|
    ensures var rest := Loop(dests[i + 1..], dist, load, Next(remaining, dist, load));
            && prefix + Block(remaining, dests[i], dist, load) + rest.actions
               == prefix + Loop(dests[i..], dist, load, remaining).actions
            && rest.remaining == Loop(dests[i..], dist, load, remaining).remaining
  {
    assert dests[i..][1..] == dests[i + 1..];
  }

  /** The dispensing section written the way the protocol runs it: a loop that
      appends to the trace and keeps `remaining` up to date. It emits the same
      trace as `DropCast`, and its counter is what replaying that trace gives;
      when a reload covers at least one dose the counter stays within [0, load]. */
  method RunDropCast(dests: seq<Well>, dist: nat, load: nat) returns (trace: seq<Action>, remaining: int)
    ensures trace == DropCast(dests, dist, load)
    ensures remaining == Loop(dests, dist, load, 0).remaining
    ensures remaining == Replay(trace, 0)
    ensures load >= dist ==> 0 <= remaining <= load
  {
    trace := [PickUp];
    remaining := 0;
    var i := 0;
    while i < |dests|
      invariant 0 <= i <= |dests|
      invariant trace + Loop(dests[i..], dist, load, remaining).actions == [PickUp] + Loop(dests, dist, load, 0).actions
      invariant Loop(dests[i..], dist, load, remaining).remaining == Loop(dests, dist, load, 0).remaining
      invariant remaining == Replay(trace, 0)
      invariant load >= dist ==> 0 <= remaining <= load
    {
      LoopStep(trace, dests, i, dist, load, remaining);
      ghost var prev, r0 := trace, remaining;
      if remaining < dist {
        ReplaySnoc(trace, Aspirate(load), 0);
        trace := trace + [Aspirate(load)];
        remaining := load;
      }
      ReplaySnoc(trace, Dispense(dist, dests[i]), 0);
      trace := trace + [Dispense(dist, dests[i])];
      remaining := remaining - dist;
      assert trace == prev + Block(r0, dests[i], dist, load);
      i := i + 1;
    }
    assert dests[i..] == [];
    ReplaySnoc(trace, BlowOut, 0);
    ReplaySnoc(trace + [BlowOut], DropTip, 0);
    trace := trace + [BlowOut] + [DropTip];
  }
}

=== FILE: drop_casting_proofs.dfy ===
/** Properties of the drop-casting loop: what it dispenses and in which order,
    when it reloads, how the counter evolves, and the concrete schedule of the
    protocol as configured (10 µL into each of 384 wells, 500 µL per reload).
 */
module DropCastingProofs {
  import opened DropCasting
  import opened Arith

  // ---------------------------------------------------------------------------
  // One iteration, unfolded for every observer
  // ---------------------------------------------------------------------------

  /** The tail of one iteration followed by `rest`, one and two actions in. */
  lemma BlockTails(r: int, w: Well, dist: nat, load: nat, rest: seq<Action>)
    ensures var t := Block(r, w, dist, load) + rest;
            && (r < dist ==> t[0] == Aspirate(load) && t[1] == Dispense(dist, w) && t[1..] == [Dispense(dist, w)] + rest && t[2..] == rest)
            && (r >= dist ==> t[0] == Dispense(dist, w) && t[1..] == rest)
  {
    var t := Block(r, w, dist, load) + rest;
    if r < dist {
      assert t[1..] == [Dispense(dist, w)] + rest;
      assert t[2..] == rest;
    } else {
      assert t[1..] == rest;
    }
  }

  /** One iteration dispenses into its well and counts one reload at most. */
  lemma BlockCounts(r: int, w: Well, dist: nat, load: nat, rest: seq<Action>)
    ensures var t := Block(r, w, dist, load) + rest;
            && Dispensed(t) == [w] + Dispensed(rest)
            && CountAspirates(t) == (if r < dist then 1 else 0) + CountAspirates(rest)
            && CountDispenses(t) == 1 + CountDispenses(rest)
  {
    BlockTails(r, w, dist, load, rest);
  }

  /** Replaying one iteration moves the counter to `Next`. */
  lemma BlockReplay(r: int, w: Well, dist: nat, load: nat, rest: seq<Action>)
    ensures var t := Block(r, w, dist, load) + rest;
            && Replay(t, r) == Replay(rest, Next(r, dist, load))
            && Levels(t, r) == (if r < dist then [r, load] else [r]) + Levels(rest, Next(r, dist, load))
  {
    BlockTails(r, w, dist, load, rest);
  }

  /** One iteration contributes one reload flag and obeys the reload rule. */
  lemma BlockReload(r: int, w: Well, dist: nat, load: nat, rest: seq<Action>)
    ensures var t := Block(r, w, dist, load) + rest;
            && ReloadFlags(t) == [r < dist] + ReloadFlags(rest)
            && ReloadsExactlyWhenLow(t, r, dist, load) == ReloadsExactlyWhenLow(rest, Next(r, dist, load), dist, load)
  {
    BlockTails(r, w, dist, load, rest);
  }

  /** Concatenation regroups freely. */
  lemma Assoc<T>(a: seq<T>, b: seq<T>, c: seq<T>)
    ensures a + b + c == a + (b + c)
  {
  }

  /** The loop's trace is its first iteration followed by the rest of the loop. */
  lemma LoopUnfold(dests: seq<Well>, dist: nat, load: nat, rem: int, suffix: seq<Action>)
    requires |dests| > 0
    ensures Loop(dests, dist, load, rem).actions + suffix
         == Block(rem, dests[0], dist, load) + (Loop(dests[1..], dist, load, Next(rem, dist, load)).actions + suffix)
    ensures Loop(dests, dist, load, rem).remaining == Loop(dests[1..], dist, load, Next(rem, dist, load)).remaining
  {
    Assoc(Block(rem, dests[0], dist, load), Loop(dests[1..], dist, load, Next(rem, dist, load)).actions, suffix);
  }

  // ---------------------------------------------------------------------------
  // The loop, for any entry counter and anything that follows it
  // ---------------------------------------------------------------------------

  /** The loop dispenses exactly one dose into each destination, in input
      order, and emits nothing but reloads of `load` and dispenses of `dist`. */
  lemma LoopDispensesInOrder(dests: seq<Well>, dist: nat, load: nat, rem: int, suffix: seq<Action>)
    ensures Dispensed(Loop(dests, dist, load, rem).actions + suffix) == dests + Dispensed(suffix)
    ensures CountDispenses(Loop(dests, dist, load, rem).actions + suffix) == |dests| + CountDispenses(suffix)
    ensures forall a | a in Loop(dests, dist, load, rem).actions :: a == Aspirate(load) || (a.Dispense? && a.volume == dist)
  {
    LoopDispensed(dests, dist, load, rem, suffix);
    LoopDispenseCount(dests, dist, load, rem, suffix);
    LoopActionKinds(dests, dist, load, rem);
  }

  /** The wells the loop dispenses into are its destinations, in order. */
  lemma {:induction false} LoopDispensed(dests: seq<Well>, dist: nat, load: nat, rem: int, suffix: seq<Action>)
    ensures Dispensed(Loop(dests, dist, load, rem).actions + suffix) == dests + Dispensed(suffix)
    decreases |dests|
  {
    if |dests| > 0 {
      var rest := Loop(dests[1..], dist, load, Next(rem, dist, load)).actions;
      LoopDispensed(dests[1..], dist, load, Next(rem, dist, load), suffix);
      LoopUnfold(dests, dist, load, rem, suffix);
      BlockCounts(rem, dests[0], dist, load, rest + suffix);
      Assoc([dests[0]], dests[1..], Dispensed(suffix));
      assert dests == [dests[0]] + dests[1..];
    } else {
      assert Loop(dests, dist, load, rem).actions + suffix == suffix;
    }
  }

  /** The loop dispenses once per destination. */
  lemma {:induction false} LoopDispenseCount(dests: seq<Well>, dist: nat, load: nat, rem: int, suffix: seq<Action>)
    ensures CountDispenses(Loop(dests, dist, load, rem).actions + suffix) == |dests| + CountDispenses(suffix)
    decreases |dests|
  {
    if |dests| > 0 {
      var rest := Loop(dests[1..], dist, load, Next(rem, dist, load)).actions;
      LoopDispenseCount(dests[1..], dist, load, Next(rem, dist, load), suffix);
      LoopUnfold(dests, dist, load, rem, suffix);
      BlockCounts(rem, dests[0], dist, load, rest + suffix);
    } else {
      assert Loop(dests, dist, load, rem).actions + suffix == suffix;
    }
  }

  /** The loop emits nothing but reloads of `load` and dispenses of `dist`. */
  lemma {:induction false} LoopActionKinds(dests: seq<Well>, dist: nat, load: nat, rem: int)
    ensures forall a | a in Loop(dests, dist, load, rem).actions :: a == Aspirate(load) || (a.Dispense? && a.volume == dist)
    decreases |dests|
  {
    if |dests| > 0 {
      LoopActionKinds(dests[1..], dist, load, Next(rem, dist, load));
    }
  }

  /** Replaying the loop's trace reproduces the loop's own counter: a reload
      sets `remaining` to `load`, and each dispense takes one dose off it. */
  lemma {:induction false} LoopCounterIsReplay(dests: seq<Well>, dist: nat, load: nat, rem: int, suffix: seq<Action>)
    ensures Replay(Loop(dests, dist, load, rem).actions + suffix, rem)
         == Replay(suffix, Loop(dests, dist, load, rem).remaining)
    decreases |dests|
  {
    if |dests| > 0 {
      var rest := Loop(dests[1..], dist, load, Next(rem, dist, load)).actions;
      LoopCounterIsReplay(dests[1..], dist, load, Next(rem, dist, load), suffix);
      LoopUnfold(dests, dist, load, rem, suffix);
      BlockReplay(rem, dests[0], dist, load, rest + suffix);
    } else {
      assert Loop(dests, dist, load, rem).actions + suffix == suffix;
    }
  }

  /** The loop reloads exactly when the counter cannot cover one dose: its
      trace satisfies the reload rule whatever the volumes are. */
  lemma {:induction false} LoopReloadRule(dests: seq<Well>, dist: nat, load: nat, rem: int, suffix: seq<Action>)
    ensures ReloadsExactlyWhenLow(Loop(dests, dist, load, rem).actions + suffix, rem, dist, load)
        == ReloadsExactlyWhenLow(suffix, Loop(dests, dist, load, rem).remaining, dist, load)
    decreases |dests|
  {
    if |dests| > 0 {
      var rest := Loop(dests[1..], dist, load, Next(rem, dist, load)).actions;
      LoopReloadRule(dests[1..], dist, load, Next(rem, dist, load), suffix);
      LoopUnfold(dests, dist, load, rem, suffix);
      BlockReload(rem, dests[0], dist, load, rest + suffix);
    } else {
      assert Loop(dests, dist, load, rem).actions + suffix == suffix;
    }
  }

  /** When a reload covers at least one dose, a counter that starts within
      [0, load] stays there after every action of the loop; once something has
      been dispensed it is strictly below `load`. */
  lemma {:induction false} LoopCounterBounded(dests: seq<Well>, dist: nat, load: nat, rem: int)
    requires dist <= load && 0 <= rem <= load
    ensures LevelsWithin(Levels(Loop(dests, dist, load, rem).actions, rem), load)
    ensures 0 <= Loop(dests, dist, load, rem).remaining <= load
    ensures dist > 0 && |dests| > 0 ==> Loop(dests, dist, load, rem).remaining < load
    decreases |dests|
  {
    if |dests| > 0 {
      var next := Next(rem, dist, load);
      var rest := Loop(dests[1..], dist, load, next).actions;
      LoopCounterBounded(dests[1..], dist, load, next);
      BlockReplay(rem, dests[0], dist, load, rest);
      var ls := Levels(Loop(dests, dist, load, rem).actions, rem);
      var tail := Levels(rest, next);
      assert ls == (if rem < dist then [rem, load] else [rem]) + tail;
      forall j | 0 <= j < |ls|
        ensures 0 <= ls[j] <= load
      {
        var k := if rem < dist then 2 else 1;
        if j >= k {
          assert ls[j] == tail[j - k];
        }
      }
    }
  }

  /** Every reload overwrites the counter, which forgets whatever residue it
      held (the liquid itself stays in the tip), so the counter never claims
      more than was drawn minus what was dispensed. */
  lemma {:induction false} CounterNeverExceedsDrawn(dests: seq<Well>, dist: nat, load: nat, rem: int)
    requires dist <= load && 0 <= rem
    ensures var t := Loop(dests, dist, load, rem);
            load * CountAspirates(t.actions) - dist * CountDispenses(t.actions) >= t.remaining - rem
    decreases |dests|
  {
    if |dests| > 0 {
      var next := Next(rem, dist, load);
      var rest := Loop(dests[1..], dist, load, next).actions;
      CounterNeverExceedsDrawn(dests[1..], dist, load, next);
      BlockCounts(rem, dests[0], dist, load, rest);
      CountStep(load, dist, CountAspirates(rest), CountDispenses(rest),
                if rem < dist then 1 else 0, rem, next, Loop(dests[1..], dist, load, next).remaining);
    }
  }

  /** The bookkeeping of one iteration: a reload (c = 1) sets the counter to
      `load`, forgetting the `rem` it held, and the dispense takes `dist`. The
      gap between drawn-minus-dispensed and the counter's change grows by
      exactly the forgotten `rem`. */
  lemma CountStep(load: int, dist: int, a: int, d: int, c: int, rem: int, next: int, final: int)
    requires c == 0 || c == 1
    requires c == 1 ==> next == load - dist
    requires c == 0 ==> next == rem - dist
    ensures load * (c + a) - dist * (1 + d) - (final - rem)
         == load * a - dist * d - (final - next) + (if c == 1 then rem else 0)
  {
    assert load * (c + a) == load * c + load * a;
    assert dist * (1 + d) == dist + dist * d;
  }

  /** When the reload volume is a whole number of doses, the counter is empty
      at every reload, so it forgets nothing: load × reloads − dose × dispenses
      is exactly the counter's change. */
  lemma {:induction false} ConservationWhenDivisible(dests: seq<Well>, dist: nat, load: nat, rem: int)
    requires 0 < dist <= load && load % dist == 0
    requires 0 <= rem && rem % dist == 0
    ensures var t := Loop(dests, dist, load, rem);
            load * CountAspirates(t.actions) - dist * CountDispenses(t.actions) == t.remaining - rem
    decreases |dests|
  {
    if |dests| > 0 {
      var next := Next(rem, dist, load);
      var tail := Loop(dests[1..], dist, load, next);
      if rem < dist {
        SmallMultipleIsZero(rem, dist);
        MultipleStep(load, dist);
      } else {
        MultipleStep(rem, dist);
      }
      ConservationWhenDivisible(dests[1..], dist, load, next);
      BlockCounts(rem, dests[0], dist, load, tail.actions);
      CountStep(load, dist, CountAspirates(tail.actions), CountDispenses(tail.actions),
                if rem < dist then 1 else 0, rem, next, tail.remaining);
    }
  }

  /** A multiple of `d` below `d` is zero. */
  lemma SmallMultipleIsZero(x: int, d: int)
    requires 0 <= x < d && x % d == 0
    ensures x == 0
  {
    DivModUnique(x, d, 0, x);
  }

  /** Taking one `d` away from a positive multiple of `d` leaves a multiple of `d`. */
  lemma MultipleStep(x: int, d: int)
    requires 0 < d <= x && x % d == 0
    ensures (x - d) % d == 0
  {
    var q := x / d;
    assert x == q * d;
    assert x - d == (q - 1) * d;
    DivModUnique(x - d, d, q - 1, 0);
  }

  // ---------------------------------------------------------------------------
  // The reload schedule in closed form
  // ---------------------------------------------------------------------------

  /** With `n` = the number of whole doses in one reload, the counter after `m`
      dispenses in the current cycle: below one dose at a cycle boundary,
      otherwise `load` minus what the cycle has dispensed so far. */
  predicate InPhase(m: nat, rem: int, dist: nat, load: nat)
    requires 0 < dist <= load
  {
    var n := load / dist;
    QuotientBounds(load, dist);
    if m % n == 0 then rem < dist else rem == load - dist * (m % n)
  }

  /** The phase advances by one with every iteration. */
  lemma PhaseStep(m: nat, rem: int, dist: nat, load: nat)
    requires 0 < dist <= load && InPhase(m, rem, dist, load)
    ensures InPhase(m + 1, Next(rem, dist, load), dist, load)
    ensures (rem < dist) == (m % (load / dist) == 0)
    ensures Next(rem, dist, load) == load - dist * (m % (load / dist) + 1)
  {
    var n := load / dist;
    QuotientBounds(load, dist);
    ModSucc(m, n);
    var q := m % n;
    if q != 0 {
      MulLe(q, n - 1, dist);
      assert dist * (n - 1) == dist * n - dist;
    }
    assert dist * (q + 1) == dist * q + dist;
  }

  /** The reference schedule: for `len` consecutive dispenses starting at
      phase `m`, whether each one falls on a multiple of `n`. */
  function Schedule(m: nat, len: nat, n: nat): (s: seq<bool>)
    requires n > 0
    ensures |s| == len
    decreases len
  {
    if len == 0 then [] else [m % n == 0] + Schedule(m + 1, len - 1, n)
  }

  /** The k-th flag of the reference schedule is whether m + k is a multiple of n. */
  lemma {:induction false} ScheduleAt(m: nat, len: nat, n: nat, k: nat)
    requires n > 0 && k < len
    ensures Schedule(m, len, n)[k] == ((m + k) % n == 0)
    decreases len
  {
    if k > 0 {
      ScheduleAt(m + 1, len - 1, n, k - 1);
    }
  }

  /** Entered in phase `m`, the loop reloads before each destination exactly
      as the reference schedule says. */
  lemma {:induction false} LoopScheduleFlags(dests: seq<Well>, dist: nat, load: nat, rem: int, m: nat, suffix: seq<Action>)
    requires 0 < dist <= load && InPhase(m, rem, dist, load)
    ensures load / dist > 0
    ensures ReloadFlags(Loop(dests, dist, load, rem).actions + suffix)
            == Schedule(m, |dests|, load / dist) + ReloadFlags(suffix)
    decreases |dests|
  {
    QuotientBounds(load, dist);
    if |dests| > 0 {
      var next := Next(rem, dist, load);
      var rest := Loop(dests[1..], dist, load, next).actions;
      PhaseStep(m, rem, dist, load);
      LoopScheduleFlags(dests[1..], dist, load, next, m + 1, suffix);
      LoopUnfold(dests, dist, load, rem, suffix);
      BlockReload(rem, dests[0], dist, load, rest + suffix);
      Assoc([rem < dist], Schedule(m + 1, |dests| - 1, load / dist), ReloadFlags(suffix));
    } else {
      assert Loop(dests, dist, load, rem).actions + suffix == suffix;
    }
  }

  /** Entered in phase `m`, the loop reloads once per multiple of n among
      m, ..., m + |dests| − 1. */
  lemma {:induction false} LoopScheduleCount(dests: seq<Well>, dist: nat, load: nat, rem: int, m: nat, suffix: seq<Action>)
    requires 0 < dist <= load && InPhase(m, rem, dist, load)
    ensures load / dist > 0
    ensures CountAspirates(Loop(dests, dist, load, rem).actions + suffix)
            == CeilDiv(m + |dests|, load / dist) - CeilDiv(m, load / dist) + CountAspirates(suffix)
    decreases |dests|
  {
    var n := load / dist;
    QuotientBounds(load, dist);
    if |dests| > 0 {
      var next := Next(rem, dist, load);
      var rest := Loop(dests[1..], dist, load, next).actions;
      PhaseStep(m, rem, dist, load);
      LoopScheduleCount(dests[1..], dist, load, next, m + 1, suffix);
      LoopUnfold(dests, dist, load, rem, suffix);
      BlockCounts(rem, dests[0], dist, load, rest + suffix);
      CeilDivSucc(m, n);
      assert m + 1 + |dests[1..]| == m + |dests|;
    } else {
      assert Loop(dests, dist, load, rem).actions + suffix == suffix;
    }
  }

  /** Entered in phase `m`, a non-empty loop ends with `load` minus the doses
      of its last cycle. */
  lemma {:induction false} LoopScheduleFinal(dests: seq<Well>, dist: nat, load: nat, rem: int, m: nat)
    requires 0 < dist <= load && InPhase(m, rem, dist, load) && |dests| > 0
    ensures load / dist > 0
    ensures Loop(dests, dist, load, rem).remaining == load - dist * ((m + |dests| - 1) % (load / dist) + 1)
    decreases |dests|
  {
    QuotientBounds(load, dist);
    var next := Next(rem, dist, load);
    PhaseStep(m, rem, dist, load);
    if |dests| > 1 {
      LoopScheduleFinal(dests[1..], dist, load, next, m + 1);
      assert m + 1 + |dests[1..]| - 1 == m + |dests| - 1;
    } else {
      assert Loop(dests[1..], dist, load, next) == Run([], next);
    }
  }

  // ---------------------------------------------------------------------------
  // The whole dispensing section
  // ---------------------------------------------------------------------------

  /** The trace is the pick-up, then the loop's body, then the closing pair. */
  lemma DropCastSplit(dests: seq<Well>, dist: nat, load: nat)
    ensures var body := Loop(dests, dist, load, 0).actions;
            var t := DropCast(dests, dist, load);
            && t == [PickUp] + (body + [BlowOut, DropTip])
            && t[1..] == body + [BlowOut, DropTip]
  {
    var body := Loop(dests, dist, load, 0).actions;
    Assoc([PickUp], body, [BlowOut, DropTip]);
    var t := DropCast(dests, dist, load);
    assert t[1..] == body + [BlowOut, DropTip];
  }

  /** Every observer on the closing blow-out and tip drop. */
  lemma TailFacts(r: int, dist: nat, load: nat)
    ensures Replay([BlowOut, DropTip], r) == r
    ensures Levels([BlowOut, DropTip], r) == [r, r, r]
    ensures ReloadsExactlyWhenLow([BlowOut, DropTip], r, dist, load)
    ensures ReloadFlags([BlowOut, DropTip]) == []
    ensures CountAspirates([BlowOut, DropTip]) == 0
    ensures CountDispenses([BlowOut, DropTip]) == 0
    ensures Dispensed([BlowOut, DropTip]) == []
  {
    var tail := [BlowOut, DropTip];
    assert tail[1..] == [DropTip];
    assert [DropTip][1..] == [];
    assert Replay([DropTip], r) == r;
    assert Levels([DropTip], r) == [r, r];
    assert ReloadsExactlyWhenLow([DropTip], r, dist, load);
  }

  /** The trace has a fixed frame: one tip pick-up first and nowhere else, one
      blow-out and one tip drop last and nowhere else, so no dispense comes
      after the blow-out. */
  lemma DropCastFrame(dests: seq<Well>, dist: nat, load: nat)
    ensures var t := DropCast(dests, dist, load);
            && |t| >= 3 && t[0] == PickUp && t[|t| - 2] == BlowOut && t[|t| - 1] == DropTip
            && (forall j | 0 < j < |t| :: t[j] != PickUp)
            && (forall j | 0 <= j < |t| - 2 :: t[j] != BlowOut && t[j] != DropTip)
            && (forall j | 0 <= j < |t| && t[j].Dispense? :: j < |t| - 2)
  {
    var body := Loop(dests, dist, load, 0).actions;
    var t := DropCast(dests, dist, load);
    LoopDispensesInOrder(dests, dist, load, 0, []);
    DropCastSplit(dests, dist, load);
    forall j | 0 < j < |t| - 2
      ensures t[j] == body[j - 1]
    {
    }
    forall j | 0 < j < |t| - 2
      ensures t[j].Aspirate? || t[j].Dispense?
    {
      assert body[j - 1] in body;
    }
  }

  /** Every destination is dispensed into once, in input order, with one dose
      each; with a positive dose and a non-empty well list, the first action
      after the pick-up is a reload. */
  lemma DropCastDispenses(dests: seq<Well>, dist: nat, load: nat)
    ensures var t := DropCast(dests, dist, load);
            && Dispensed(t) == dests
            && CountDispenses(t) == |dests|
            && (forall j | 0 <= j < |t| && t[j].Dispense? :: t[j].volume == dist)
            && (dist > 0 && |dests| > 0 ==> t[1] == Aspirate(load))
  {
    var body := Loop(dests, dist, load, 0).actions;
    var t := DropCast(dests, dist, load);
    DropCastSplit(dests, dist, load);
    LoopDispensesInOrder(dests, dist, load, 0, [BlowOut, DropTip]);
    TailFacts(0, dist, load);
    assert dests + [] == dests;
    forall j | 0 <= j < |t| && t[j].Dispense?
      ensures t[j].volume == dist
    {
      if 0 < j <= |body| {
        assert t[j] == body[j - 1];
        assert body[j - 1] in body;
      }
    }
    if dist > 0 && |dests| > 0 {
      BlockTails(0, dests[0], dist, load, Loop(dests[1..], dist, load, Next(0, dist, load)).actions);
    }
  }

  /** Over the whole trace, replayed from the empty counter, reloads happen
      exactly when the counter cannot cover a dose, the replayed counter ends at
      the loop's `remaining`, and, when a reload covers a dose, it stays within
      [0, load] at every step. */
  lemma DropCastCounter(dests: seq<Well>, dist: nat, load: nat)
    ensures var t := DropCast(dests, dist, load);
            && ReloadsExactlyWhenLow(t, 0, dist, load)
            && Replay(t, 0) == Loop(dests, dist, load, 0).remaining
            && (dist <= load ==> LevelsWithin(Levels(t, 0), load))
  {
    var body := Loop(dests, dist, load, 0).actions;
    var r := Loop(dests, dist, load, 0).remaining;
    var t := DropCast(dests, dist, load);
    DropCastSplit(dests, dist, load);
    LoopReloadRule(dests, dist, load, 0, [BlowOut, DropTip]);
    LoopCounterIsReplay(dests, dist, load, 0, [BlowOut, DropTip]);
    TailFacts(r, dist, load);
    if dist <= load {
      LoopCounterBounded(dests, dist, load, 0);
      LevelsAppend(body, [BlowOut, DropTip], 0);
      LoopCounterIsReplay(dests, dist, load, 0, []);
      assert body + [] == body;
      var lb := Levels(body, 0);
      var ls := Levels(t, 0);
      assert ls == [0] + (lb + [r, r]);
      forall j | 0 <= j < |ls|
        ensures 0 <= ls[j] <= load
      {
        if 1 <= j <= |lb| {
          assert ls[j] == lb[j - 1];
        }
      }
    }
  }

  /** The history of a concatenation continues from where the first part ends. */
  lemma {:induction false} LevelsAppend(a: seq<Action>, b: seq<Action>, level: int)
    ensures Levels(a + b, level) == Levels(a, level) + Levels(b, Replay(a, level))[1..]
    decreases |a|
  {
    if |a| > 0 {
      assert (a + b)[1..] == a[1..] + b;
      LevelsAppend(a[1..], b, Apply(level, a[0]));
    } else {
      assert a + b == b;
    }
  }

  /** Over the whole trace, with n whole doses per reload: the reload before
      the k-th dispense happens exactly when k is a multiple of n, there are
      ⌈|dests| / n⌉ reloads, and the counter ends at `load` minus the doses of
      the last cycle. */
  lemma DropCastSchedule(dests: seq<Well>, dist: nat, load: nat)
    requires 0 < dist <= load
    ensures var n := load / dist;
            var t := DropCast(dests, dist, load);
            && n > 0
            && |ReloadFlags(t)| == |dests|
            && (forall k | 0 <= k < |dests| :: ReloadFlags(t)[k] <==> k % n == 0)
            && CountAspirates(t) == CeilDiv(|dests|, n)
            && (|dests| > 0 ==> Replay(t, 0) == load - dist * ((|dests| - 1) % n + 1))
  {
    DropCastFlags(dests, dist, load);
    DropCastCount(dests, dist, load);
    DropCastFinal(dests, dist, load);
  }

  /** The reload flags of the whole trace follow the reference schedule. */
  lemma DropCastFlags(dests: seq<Well>, dist: nat, load: nat)
    requires 0 < dist <= load
    ensures var n := load / dist;
            var t := DropCast(dests, dist, load);
            && n > 0
            && |ReloadFlags(t)| == |dests|
            && (forall k | 0 <= k < |dests| :: ReloadFlags(t)[k] <==> k % n == 0)
  {
    var n := load / dist;
    var t := DropCast(dests, dist, load);
    QuotientBounds(load, dist);
    DropCastSplit(dests, dist, load);
    assert InPhase(0, 0, dist, load);
    LoopScheduleFlags(dests, dist, load, 0, 0, [BlowOut, DropTip]);
    TailFacts(0, dist, load);
    forall k | 0 <= k < |dests|
      ensures ReloadFlags(t)[k] <==> k % n == 0
    {
      ScheduleAt(0, |dests|, n, k);
    }
  }

  /** The whole trace reloads ⌈N / n⌉ times. */
  lemma DropCastCount(dests: seq<Well>, dist: nat, load: nat)
    requires 0 < dist <= load
    ensures load / dist > 0
    ensures CountAspirates(DropCast(dests, dist, load)) == CeilDiv(|dests|, load / dist)
  {
    var n := load / dist;
    QuotientBounds(load, dist);
    DropCastSplit(dests, dist, load);
    assert InPhase(0, 0, dist, load);
    LoopScheduleCount(dests, dist, load, 0, 0, [BlowOut, DropTip]);
    TailFacts(0, dist, load);
    assert CeilDiv(0, n) == 0;
  }

  /** Replayed from 0, the whole trace ends at the closed-form final counter. */
  lemma DropCastFinal(dests: seq<Well>, dist: nat, load: nat)
    requires 0 < dist <= load
    ensures load / dist > 0
    ensures |dests| > 0 ==> Replay(DropCast(dests, dist, load), 0) == load - dist * ((|dests| - 1) % (load / dist) + 1)
  {
    QuotientBounds(load, dist);
    if |dests| > 0 {
      assert InPhase(0, 0, dist, load);
      LoopScheduleFinal(dests, dist, load, 0, 0);
      DropCastCounter(dests, dist, load);
    }
  }

  /** When the reload volume is a whole number of doses, the number of reloads
      is the total dispensed volume over the reload volume, rounded up. */
  lemma ReloadCountWhenDivisible(dests: seq<Well>, dist: nat, load: nat)
    requires 0 < dist <= load && load % dist == 0
    ensures CountAspirates(DropCast(dests, dist, load)) == CeilDiv(|dests| * dist, load)
  {
    DropCastSchedule(dests, dist, load);
    CeilDivScaled(|dests|, load / dist, dist);
    assert load / dist * dist == load by {
      DivModUnique(load, dist, load / dist, 0);
    }
  }

  /** When the reload volume is not a whole number of doses, the counter is
      overwritten at each reload and forgets the residue of the cycle (which
      stays in the tip until the final blow-out), so the loop reloads more
      often than the total volume over the reload volume: 10 doses of 3 µL
      with 10 µL reloads take 4 reloads, not ⌈30 / 10⌉ = 3. */
  lemma ReloadCountWithResidue(dests: seq<Well>)
    requires |dests| == 10
    ensures CountAspirates(DropCast(dests, 3, 10)) == 4
    ensures CeilDiv(|dests| * 3, 10) == 3
  {
    DropCastSchedule(dests, 3, 10);
    assert 10 / 3 == 3;
    assert CeilDiv(10, 3) == 4;
  }

  /** Below one dose per reload (load < dose), nothing in the loop guards the
      counter: it reloads before every well and, from the first well on,
      ends each well at load − dose, below zero. Drawn minus dispensed is
      then (load − dose) per well, so from the second well on it falls below
      the counter's change, the reverse of `CounterNeverExceedsDrawn`. */
  lemma {:induction false} ReloadsEveryWellBelowOneDose(dests: seq<Well>, dist: nat, load: nat, rem: int)
    requires load < dist && rem < dist
    ensures var t := Loop(dests, dist, load, rem);
            && CountAspirates(t.actions) == |dests|
            && CountDispenses(t.actions) == |dests|
            && t.remaining == (if |dests| == 0 then rem else load - dist)
    decreases |dests|
  {
    if |dests| > 0 {
      var next := Next(rem, dist, load);
      var rest := Loop(dests[1..], dist, load, next).actions;
      ReloadsEveryWellBelowOneDose(dests[1..], dist, load, next);
      BlockCounts(rem, dests[0], dist, load, rest);
    }
  }

  /** The bound of `CounterNeverExceedsDrawn` can be strict: when a reload
      comes while 1 µL is still on the counter, the counter forgets it. Four
      doses of 3 µL with 10 µL reloads draw 20 µL and dispense 12 µL, yet the
      counter ends at 7 µL, not 8 µL. */
  lemma CounterBelowDrawnWithResidue(dests: seq<Well>)
    requires |dests| == 4
    ensures var t := DropCast(dests, 3, 10);
            && CountAspirates(t) == 2 && CountDispenses(t) == 4
            && Replay(t, 0) == 7
            && 10 * CountAspirates(t) - 3 * CountDispenses(t) == 8
  {
    DropCastSchedule(dests, 3, 10);
    DropCastDispenses(dests, 3, 10);
    assert 10 / 3 == 3;
    assert CeilDiv(4, 3) == 2;
  }

  /** The protocol as configured, over the plate's 384 positions: 8 reloads,
      before the wells at indices 0, 50, ..., 350, and 160 µL left on the
      counter at the end. */
  lemma Protocol384(dests: seq<Well>)
    requires |dests| == 384
    ensures var t := Protocol(dests);
            var flags := ReloadFlags(t);
            && CountAspirates(t) == 8
            && CountDispenses(t) == 384
            && |flags| == 384
            && (forall k | 0 <= k < 384 :: flags[k] <==> k % 50 == 0)
            && Replay(t, 0) == 160
  {
    assert LOAD_VOLUME / DIST_VOLUME == 50;
    DropCastSchedule(dests, DIST_VOLUME, LOAD_VOLUME);
    DropCastDispenses(dests, DIST_VOLUME, LOAD_VOLUME);
    assert CeilDiv(384, 50) == 8;
    assert (384 - 1) % 50 + 1 == 34;
  }
}

=== FILE: electrode_sheet.dfy ===
/** The labware definition of the DIGIBAT 384 electrode sheet: 16 rows by 24
    columns of point-like wells, each keyed by its name (row letter followed by
    the column number), plus the column-major `ordering` of those names.
    Lengths are in hundredths of a millimetre, so the generator's decimal
    measurements are exact integers here. */
module ElectrodeSheet {
  import opened Options
  import opened Decimal
  import opened Arith

  /** The row letters, in row order. */
  const ROWS: string := "ABCDEFGHIJKLMNOP"
  /** The number of rows, one per letter of ROWS. */
  const NUM_ROWS: nat := 16
  /** Columns are numbered 1 to NUM_COLS, left to right. */
  const NUM_COLS: nat := 24

  /** Centre of well A1 and the pitch between neighbours (12.12, 8.98 and 4.50 mm). */
  const X_OFFSET: int := 1212
  const Y_OFFSET: int := 898
  const X_SPACING: int := 450
  const Y_SPACING: int := 450

  /** The shared well shape (1.0 mm across, 11.43 mm deep, bottom at 2.79 mm, 112 µL). */
  const WELL_DIAMETER: int := 100
  const WELL_DEPTH: int := 1143
  const WELL_Z: int := 279
  const MAX_VOL: int := 112

  /** The labware's footprint and height (127.76 × 85.47 × 14.22 mm). */
  const X_DIMENSION: int := 12776
  const Y_DIMENSION: int := 8547
  const Z_DIMENSION: int := 1422

  /** One entry of the `wells` dictionary. */
  datatype WellRecord = WellRecord(
    depth: int,
    totalLiquidVolume: int,
    shape: string,
    diameter: int,
    x: int,
    y: int,
    z: int)

  /** A grid position by zero-based row and column index. */
  datatype Position = Position(row: nat, col: nat)

  predicate OnSheet(p: Position)
  {
    p.row < NUM_ROWS && p.col < NUM_COLS
  }

  /** The rows are the letters A to P in alphabetical order. */
  lemma RowLetters()
    ensures |ROWS| == NUM_ROWS
    ensures forall i | 0 <= i < NUM_ROWS :: ROWS[i] as int == 'A' as int + i
  {
  }

  /** The name of the well at row index `row`, column index `col`: its row
      letter, then a decimal numeral that reads back as the one-based column. */
  function WellName(row: nat, col: nat): (name: string)
    requires row < NUM_ROWS
  {
    RowLetters();
    [ROWS[row]] + Show(col + 1)
  }

  /** The row index of a row letter, if it is one. */
  function RowIndex(c: char): (r: Option<nat>)
    ensures r.Some? ==> r.value < NUM_ROWS && r.value < |ROWS| && ROWS[r.value] == c
  {
    RowLetters();
    if 'A' <= c <= 'P' then Some(c as int - 'A' as int) else None
  }

  /** The grid position a name stands for; None for any string that is not
      the name of a well on the sheet. */
  function Locate(name: string): (p: Option<Position>)
    ensures p.Some? ==> OnSheet(p.value)
  {
    if |name| < 2 then None
    else match (RowIndex(name[0]), Parse(name[1..]))
      case (Some(r), Some(n)) =>
        if 1 <= n <= NUM_COLS then Some(Position(r, n - 1)) else None
      case _ => None
  }

  /** Every well's name locates back to its own position. */
  lemma LocateWellName(p: Position)
    requires OnSheet(p)
    ensures Locate(WellName(p.row, p.col)) == Some(p)
  {
    var name := WellName(p.row, p.col);
    assert name[0] == ROWS[p.row];
    assert name[1..] == Show(p.col + 1);
    ParseShow(p.col + 1);
    RowLetters();
  }

  /** Every string that locates is exactly the name of the well it locates to. */
  lemma WellNameOfLocate(name: string)
    requires Locate(name).Some?
    ensures WellName(Locate(name).value.row, Locate(name).value.col) == name
  {
    ShowParse(name[1..]);
    assert name == [name[0]] + name[1..];
  }

  /** Distinct positions have distinct names. */
  lemma WellNameInjective(p: Position, q: Position)
    requires OnSheet(p) && OnSheet(q)
    ensures WellName(p.row, p.col) == WellName(q.row, q.col) <==> p == q
  {
    LocateWellName(p);
    LocateWellName(q);
  }

  /** The record the generator writes for the well at `p`: the shared shape,
      with the centre offset by one pitch per column in x and per row in y.
      Every well's top (bottom height plus depth) is flush with the labware's
      top. */
  function Record(p: Position): (w: WellRecord)
    ensures w.z + w.depth == Z_DIMENSION
  {
    WellRecord(WELL_DEPTH, MAX_VOL, "circular", WELL_DIAMETER,
               X_OFFSET + p.col * X_SPACING, Y_OFFSET + p.row * Y_SPACING, WELL_Z)
  }

  /** A record's centre decodes back to its grid position, so distinct wells
      never share a centre, and neighbouring wells are one pitch apart. */
  lemma RecordCentre(p: Position)
    ensures (Record(p).x - X_OFFSET) / X_SPACING == p.col && (Record(p).x - X_OFFSET) % X_SPACING == 0
    ensures (Record(p).y - Y_OFFSET) / Y_SPACING == p.row && (Record(p).y - Y_OFFSET) % Y_SPACING == 0
    ensures Record(Position(p.row, p.col + 1)).x - Record(p).x == X_SPACING
    ensures Record(Position(p.row + 1, p.col)).y - Record(p).y == Y_SPACING
  {
    DivModUnique(Record(p).x - X_OFFSET, X_SPACING, p.col, 0);
    DivModUnique(Record(p).y - Y_OFFSET, Y_SPACING, p.row, 0);
  }

  /** Every well on the sheet lies wholly inside the labware's footprint: its
      centre is at least half a diameter from every edge. */
  lemma RecordFits(p: Position)
    requires OnSheet(p)
    ensures var w := Record(p);
            && 0 < w.x - w.diameter / 2 && w.x + w.diameter / 2 < X_DIMENSION
            && 0 < w.y - w.diameter / 2 && w.y + w.diameter / 2 < Y_DIMENSION
  {
  }

  /** The corner wells: A1 sits at the offsets, B1 one pitch further in y and
      P24 is the last well; names with a leading zero, an unknown row letter or
      a column outside 1..24 are not wells of the sheet. */
  lemma SheetCorners()
    ensures WellName(0, 0) == "A1" && WellName(1, 0) == "B1" && WellName(NUM_ROWS - 1, NUM_COLS - 1) == "P24"
    ensures Record(Position(0, 0)).x == X_OFFSET && Record(Position(0, 0)).y == Y_OFFSET
    ensures Record(Position(1, 0)).x == X_OFFSET && Record(Position(1, 0)).y == Y_OFFSET + Y_SPACING
    ensures Locate("A1") == Some(Position(0, 0)) && Locate("P24") == Some(Position(15, 23))
    ensures Locate("A01") == None && Locate("Q1") == None && Locate("A0") == None
    ensures Locate("A25") == None && Locate("A") == None && Locate("a1") == None
  {
    assert Show(1) == "1";
    assert Show(24) == "24" by {
      assert 24 / 10 == 2 && 24 % 10 == 4;
    }
    LocateWellName(Position(0, 0));
    LocateWellName(Position(15, 23));
    assert "A01"[1..] == "01";
    assert "A25"[1..] == "25";
    assert "A0"[1..] == "0";
  }

  /** The names of column `col`, in row order A…P. */
  function ColumnNames(col: nat): (names: seq<string>)
    ensures |names| == NUM_ROWS
  {
    seq(NUM_ROWS, r requires 0 <= r < NUM_ROWS => WellName(r, col))
  }

  /** Position `p` is visited before the generator's loops reach column
      `col`, row `row`: columns outer, rows inner. */
  predicate Before(p: Position, col: nat, row: nat)
  {
    p.col < col || (p.col == col && p.row < row)
  }

  /** A loop point the generator passes through: inside a column, or just
      past the last one. */
  predicate LoopPoint(col: nat, row: nat)
  {
    (col < NUM_COLS && row <= NUM_ROWS) || (col == NUM_COLS && row == 0)
  }

  /** The reference dictionary: the records of every position visited before
      column `col`, row `row`, keyed by their names. */
  function WellsBefore(col: nat, row: nat): map<string, WellRecord>
    requires LoopPoint(col, row)
    decreases col, row
  {
    if row > 0 then WellsBefore(col, row - 1)[WellName(row - 1, col) := Record(Position(row - 1, col))]
    else if col > 0 then WellsBefore(col - 1, NUM_ROWS)
    else map[]
  }

  /** Every key of the dictionary is the name of a well visited so far, and
      it holds that well's record. */
  lemma WellsBeforeKeys(col: nat, row: nat)
    requires LoopPoint(col, row)
    ensures forall name {:trigger name in WellsBefore(col, row)} | name in WellsBefore(col, row) ::
              && Locate(name).Some? && Before(Locate(name).value, col, row)
              && WellsBefore(col, row)[name] == Record(Locate(name).value)
  {
    WellsBeforeNames(col, row);
    WellsBeforeRecords(col, row);
  }

  /** Every key of the dictionary locates to a position visited so far. */
  lemma {:induction false} WellsBeforeNames(col: nat, row: nat)
    requires LoopPoint(col, row)
    ensures forall name {:trigger name in WellsBefore(col, row)} | name in WellsBefore(col, row) ::
              Locate(name).Some? && Before(Locate(name).value, col, row)
    decreases col, row
  {
    if row > 0 {
      WellsBeforeNames(col, row - 1);
      LocateWellName(Position(row - 1, col));
    } else if col > 0 {
      WellsBeforeNames(col - 1, NUM_ROWS);
    }
  }

  /** Every key of the dictionary holds the record of the position it names. */
  lemma {:induction false} WellsBeforeRecords(col: nat, row: nat)
    requires LoopPoint(col, row)
    ensures forall name {:trigger name in WellsBefore(col, row)} | name in WellsBefore(col, row) ::
              Locate(name).Some? && WellsBefore(col, row)[name] == Record(Locate(name).value)
    decreases col, row
  {
    if row > 0 {
      WellsBeforeRecords(col, row - 1);
      LocateWellName(Position(row - 1, col));
    } else if col > 0 {
      WellsBeforeRecords(col - 1, NUM_ROWS);
    }
  }

  /** The name of every well visited so far is a key of the dictionary. */
  lemma {:induction false} WellsBeforeVisited(col: nat, row: nat)
    requires LoopPoint(col, row)
    ensures forall q | OnSheet(q) && Before(q, col, row) :: WellName(q.row, q.col) in WellsBefore(col, row)
    decreases col, row
  {
    if row > 0 {
      WellsBeforeVisited(col, row - 1);
    } else if col > 0 {
      WellsBeforeVisited(col - 1, NUM_ROWS);
    }
  }

  /** The dictionary has one entry per position visited: no name comes up twice. */
  lemma {:induction false} WellsBeforeSize(col: nat, row: nat)
    requires LoopPoint(col, row)
    ensures |WellsBefore(col, row)| == NUM_ROWS * col + row
    decreases col, row
  {
    if row > 0 {
      WellsBeforeSize(col, row - 1);
      NotYetVisited(col, row - 1);
    } else if col > 0 {
      WellsBeforeSize(col - 1, NUM_ROWS);
      assert NUM_ROWS * (col - 1) + NUM_ROWS == NUM_ROWS * col;
    }
  }

  /** The name of the well about to be visited is not a key yet. */
  lemma NotYetVisited(col: nat, row: nat)
    requires col < NUM_COLS && row < NUM_ROWS
    ensures WellName(row, col) !in WellsBefore(col, row)
  {
    WellsBeforeKeys(col, row);
    LocateWellName(Position(row, col));
  }

  /** The finished dictionary holds exactly the names `Locate` accepts, each
      with the record of the position it locates to, one entry per well. */
  lemma SheetContents()
    ensures forall name :: name in WellsBefore(NUM_COLS, 0) <==> Locate(name).Some?
    ensures forall name | name in WellsBefore(NUM_COLS, 0) ::
              WellsBefore(NUM_COLS, 0)[name] == Record(Locate(name).value)
    ensures |WellsBefore(NUM_COLS, 0)| == NUM_ROWS * NUM_COLS
  {
    WellsBeforeKeys(NUM_COLS, 0);
    WellsBeforeVisited(NUM_COLS, 0);
    WellsBeforeSize(NUM_COLS, 0);
    forall name | Locate(name).Some?
      ensures name in WellsBefore(NUM_COLS, 0)
    {
      WellNameOfLocate(name);
    }
  }

  /** A list of the sheet's columns holds each column's names in row order A…P:
      the name at column `c`, row `r` locates to exactly that position, and
      every well name sits in its own column's list at its own row. */
  lemma ColumnsInOrder(ordering: seq<seq<string>>)
    requires |ordering| == NUM_COLS
    requires forall k | 0 <= k < NUM_COLS :: ordering[k] == ColumnNames(k)
    ensures forall c | 0 <= c < |ordering| :: |ordering[c]| == NUM_ROWS
    ensures forall c, r | 0 <= c < NUM_COLS && 0 <= r < NUM_ROWS :: ordering[c][r] == WellName(r, c)
    ensures forall c, r | 0 <= c < NUM_COLS && 0 <= r < NUM_ROWS :: Locate(ordering[c][r]) == Some(Position(r, c))
    ensures forall name | Locate(name).Some? :: ordering[Locate(name).value.col][Locate(name).value.row] == name
  {
    forall c, r | 0 <= c < NUM_COLS && 0 <= r < NUM_ROWS
      ensures Locate(ordering[c][r]) == Some(Position(r, c))
    {
      LocateWellName(Position(r, c));
    }
    forall name | Locate(name).Some?
      ensures ordering[Locate(name).value.col][Locate(name).value.row] == name
    {
      WellNameOfLocate(name);
    }
  }

  /** One pass of the inner loop: the names of column `col`, in row order,
      each recorded in the dictionary as it is named. */
  method BuildColumn(col: nat, wells0: map<string, WellRecord>) returns (colWells: seq<string>, wells: map<string, WellRecord>)
    requires col < NUM_COLS && wells0 == WellsBefore(col, 0)
    ensures colWells == ColumnNames(col)
    ensures wells == WellsBefore(col + 1, 0)
  {
    colWells := [];
    wells := wells0;
    var r := 0;
    while r < NUM_ROWS
      invariant 0 <= r <= NUM_ROWS
      invariant colWells == ColumnNames(col)[..r]
      invariant wells == WellsBefore(col, r)
    {
      var name := WellName(r, col);
      colWells := colWells + [name];
      wells := wells[name := Record(Position(r, col))];
      r := r + 1;
    }
  }

  /** The generator's nested loops: for each column, for each row, name the
      well, append the name to the column's list and record the well. The
      result holds one record per well of the sheet, keyed by exactly the
      names `Locate` accepts, and `ordering` lists each column's names in row
      order A…P, columns left to right, each name once. */
  method BuildSheet() returns (wells: map<string, WellRecord>, ordering: seq<seq<string>>)
    ensures |ordering| == NUM_COLS
    ensures forall c | 0 <= c < |ordering| :: |ordering[c]| == NUM_ROWS
    ensures forall c, r | 0 <= c < NUM_COLS && 0 <= r < NUM_ROWS :: ordering[c][r] == WellName(r, c)
    ensures forall name :: name in wells <==> Locate(name).Some?
    ensures forall name | name in wells :: wells[name] == Record(Locate(name).value)
    ensures forall name | name in wells :: ordering[Locate(name).value.col][Locate(name).value.row] == name
    ensures forall c, r | 0 <= c < NUM_COLS && 0 <= r < NUM_ROWS :: ordering[c][r] in wells
    ensures forall c1, r1, c2, r2 | 0 <= c1 < NUM_COLS && 0 <= r1 < NUM_ROWS && 0 <= c2 < NUM_COLS && 0 <= r2 < NUM_ROWS ::
              ordering[c1][r1] == ordering[c2][r2] ==> c1 == c2 && r1 == r2
    ensures |wells| == NUM_ROWS * NUM_COLS
  {
    wells := map[];
    ordering := [];
    var c := 0;
    while c < NUM_COLS
      invariant 0 <= c <= NUM_COLS
      invariant |ordering| == c
      invariant forall k | 0 <= k < c :: ordering[k] == ColumnNames(k)
      invariant wells == WellsBefore(c, 0)
    {
      var colWells;
      colWells, wells := BuildColumn(c, wells);
      ordering := ordering + [colWells];
      c := c + 1;
    }
    SheetContents();
    ColumnsInOrder(ordering);
  }
}

=== FILE: options.dfy ===
/** The optional value returned by the partial parsers of this model. */
module Options {

  datatype Option<T> = None | Some(value: T)
}
